=== FILE: README.md ===
# WT2 platform — learner-progress and view logic in Dafny

The WT2 platform is a single-page e-learning client for IELTS Writing Task 2. Its logic is a
small amount of discrete state behind a React UI:

- the shell (`App.tsx`) holds the learner's progress: current course index, score, completed
  item ids, dark mode, mode and role;
- four pages consume that state: the lesson view, the Kahoot-style quiz arena, the full-screen
  exam simulator and the teacher dashboard.

This project models that logic as immutable records and pure transition functions over an
abstract, non-empty `seq<CourseItem>`. It proves the invariants the transitions keep. Modules
follow the source files:

| module | models |
|---|---|
| `Wrappers` | `Option`, standing for `null` / `undefined` |
| `Content` | `types.ts`: roles, modes, lesson/quiz items, `find` by id / by correctness |
| `Decimal` | JavaScript's number-to-string for the small naturals printed here, and `padStart`, plus a reader that inverts them |
| `Progress` | `App.tsx`: `AppState`, navigation, answers, sidebar switches, the page shown |
| `Exam` | `IELTSView.tsx`: the 2400-second clock, `formatTime`, urgency tiers, answer lock, navigation strip |
| `Arena` | `KahootView.tsx`: the 20-second question clock, timeout, selection lock, answer check, tiles |
| `Learn` | `LearnView.tsx`: one answer per visit, Next/Prev gating, option styling, feedback text, course map |
| `Session` | everything together: every click, tick and delayed callback as one `Event` |

In `Session`, timers are discrete events. `ExamTick` and `ArenaTick` are one-second ticks.
`CallbackDue(k)` means the k-th scheduled `setTimeout` callback runs; pending callbacks may run
in any order, interleaved with user events. An event whose control is not rendered or is
disabled leaves the session unchanged. `Session.Step` preserves `Session.Valid`, with one
exception taken from the code: a delayed "next" runs the corrected `Session.Fire`, not the code
as written (see "## Findings"). As written, that callback can break the first item below
(`Session.StaleAdvanceLeavesRange`). The correction agrees with the code wherever the code
keeps the index in range (`Session.FireMatchesCodeWhileInRange`). The invariant is:

- the index stays in range;
- the score is 10 times the number of completions;
- the dashboard mode is only stored with the teacher role;
- both clocks stay in range;
- the lesson view shows feedback exactly when an option was clicked;
- the live quiz-arena instance has exactly one queued advance while it holds a selection, and none otherwise.

Notes on what the code does:

- There is no personality setter in `App.tsx`, so the personality stays `Ambivert`.
- "Learning Hub" always sets mode `LEARN` with role `STUDENT`. Leaving the teacher dashboard
  therefore does not restore the earlier mode (`Progress.LearningHubDoesNotRestoreMode`).
- The exam simulator renders no sidebar, so no event leaves it once it is entered
  (`Session.ExamIsAbsorbing`).
- The delayed `setTimeout` callbacks are never cancelled when the item changes or a view
  unmounts. The model keeps them pending until they run.
- `completedIds` is a list that keeps duplicates, not a set.

## Model

| member | source | states |
|---|---|---|
| `Content.FindById` | components/modes/KahootView.tsx:53 | the first option with the id; none exactly when no option has it |
| `Content.FindCorrect` | components/modes/LearnView.tsx:265 | the first correct option; none exactly when no option is correct |
| `Decimal.FromNat` | components/modes/IELTSView.tsx:50 | decimal text is non-empty, all digits, without leading zero, one digit exactly below ten |
| `Decimal.ValueOfFromNat` | components/modes/IELTSView.tsx:50 | reading the decimal text back gives the number |
| `Decimal.ParseFromNat` | components/modes/IELTSView.tsx:50 | the reader inverts the number-to-string conversion |
| `Decimal.PadStart` | components/modes/LearnView.tsx:114 | `padStart` keeps the text as suffix, reaches the width, fills only with the pad |
| `Decimal.ValueIgnoresLeadingZeros` | components/modes/LearnView.tsx:114 | leading zeros do not change a digit string's value |
| `Decimal.PaddedValue` | components/modes/LearnView.tsx:114 | zero-padded decimal text still reads as the number |
| `Progress.InitialIsValid` | App.tsx:32-40 | the initial state (index 0, score 0, no completions, student in lessons) is valid |
| `Progress.Next` | App.tsx:52-56 | index grows by one iff it is below the last; otherwise unchanged; no other field moves; validity kept |
| `Progress.Prev` | App.tsx:58-62 | index drops by one iff it is positive; otherwise unchanged; no other field moves; validity kept |
| `Progress.JumpTo` | App.tsx:64-68 | index becomes the target iff the target names an item; otherwise the state is unchanged |
| `Progress.Answer` | App.tsx:70-78 | a correct answer adds exactly 10 and appends the current item's id; a wrong one changes nothing; score = 10 per completion is kept |
| `Progress.AnswerDoesNotDeduplicate` | App.tsx:75 | re-answering an item records its id once more |
| `Progress.ShownPage` | App.tsx:116-127 | exam for mode IELTS whatever the role; else dashboard for teachers; else lesson or arena by mode |
| `Progress.ValidNeverBlank` | App.tsx:236-260 | a valid state never leaves the content area empty |
| `Progress.ChooseLearningHub` | App.tsx:155-161 | student in lessons, pill active, progress untouched |
| `Progress.ChooseKahootArena` | App.tsx:162-168 | mode Kahoot, role kept, a teacher still sees the dashboard |
| `Progress.ChooseExamSimulator` | App.tsx:169-175 | mode IELTS, role kept, the exam is shown and the sidebar is gone |
| `Progress.ChooseAnalytics` | App.tsx:176-182 | mode Dashboard with role Teacher: the dashboard is shown, the Analytics pill is active, progress untouched |
| `Progress.ToggleDarkMode` | App.tsx:196-197 | only dark mode flips |
| `Progress.ToggleDarkModeInvolution` | App.tsx:197 | toggling twice restores the state |
| `Progress.LearningHubDoesNotRestoreMode` | App.tsx:159-180 | dashboard then Learning Hub gives lessons, not the earlier mode |
| `Progress.HeaderTitle` | App.tsx:216-217 | one title per mode (lessons, quiz, dashboard for the other two); a teacher in quiz mode sees the dashboard under "Live Quiz" |
| `Progress.HeaderTitleNamesStudentPages` | App.tsx:216-217 | for students the header title names the page shown |
| `Progress.PrevUndoesNext` | App.tsx:52-62 | back after a moving forward step restores the state |
| `Progress.NextUndoesPrev` | App.tsx:52-62 | forward after a moving back step restores the state |
| `Progress.NextTimesStopsAtLast` | App.tsx:52-56 | n forward steps reach `min(i + n, length - 1)` and move nothing else |
| `Progress.JumpShowsRequestedItem` | App.tsx:64-68 | after a valid jump the current item is the requested one |
| `Progress.LessonThenQuizWalkthrough` | App.tsx:49-78 | lesson, next, correct answer, next: index 1, score 10, completions ["Q1"] |
| `Exam.Tick` | components/modes/IELTSView.tsx:29-31 | the clock never goes negative, never rises, counts down by one while positive |
| `Exam.TicksFloor` | components/modes/IELTSView.tsx:25-31 | after n seconds the clock reads `max(0, t - n)` |
| `Exam.ExamEndsAtZero` | components/modes/IELTSView.tsx:25-31 | from 2400, any 2400 or more ticks read 0 |
| `Exam.SecondsField` | components/modes/IELTSView.tsx:49-50 | the seconds field is two digits reading the seconds |
| `Exam.FormatTime` | components/modes/IELTSView.tsx:47-51 | minutes, a colon, exactly two digits; no leading zero on the minutes |
| `Exam.FormatTimeRoundTrip` | components/modes/IELTSView.tsx:47-51 | the clock text reads back as `minutes * 60 + seconds` with seconds below 60 |
| `Exam.FormatTimeInjective` | components/modes/IELTSView.tsx:47-51 | different times show different texts |
| `Exam.FormatTimeExamples` | components/modes/IELTSView.tsx:47-51 | 2400 gives "40:00", 0 gives "0:00", 65 gives "1:05" |
| `Exam.TimerTier` | components/modes/IELTSView.tsx:54-58 | green iff above 300 s, yellow iff in (60, 300], red iff at most 60 |
| `Exam.UrgentImpliesRed` | components/modes/IELTSView.tsx:54-61 | the pulsing clock (under 30 s) is always in the red tier |
| `Exam.TierNeverRecovers` | components/modes/IELTSView.tsx:54-58 | counting down never moves the tier towards green |
| `Exam.ProgressWidth` | components/modes/IELTSView.tsx:105 | for a clock in [0, 2400] the bar width is in [0, 100] |
| `Exam.ProgressWidthMonotonic` | components/modes/IELTSView.tsx:105 | less time left never gives a wider bar |
| `Exam.Submit` | components/modes/IELTSView.tsx:70-75 | the first choice records the option, reports its correctness and schedules one advance; later choices do nothing |
| `Exam.SubmitIsOneShot` | components/modes/IELTSView.tsx:171-175 | two choices on one item report once and schedule once |
| `Exam.OnIndexChange` | components/modes/IELTSView.tsx:43-45 | the selection clears exactly when the index changes |
| `Exam.NavStrip` | components/modes/IELTSView.tsx:202-214 | one button per item, targets 0..n-1, captioned with the unpadded one-based position, highlighted iff current |
| `Exam.Caption` | components/modes/IELTSView.tsx:212 | the button caption reads as the one-based position, without a leading zero |
| `Exam.OneHighlightedButton` | components/modes/IELTSView.tsx:207-210 | exactly the current item's button is highlighted |
| `Arena.Restart` | components/modes/KahootView.tsx:28-32 | the clock resets to 20 exactly when a quiz shows with nothing selected |
| `Arena.StoredSelection` | components/modes/KahootView.tsx:48 | a non-empty option id is stored as is; a missing or empty id becomes the timeout marker |
| `Arena.IsCorrect` | components/modes/KahootView.tsx:50-53 | a timeout is never correct |
| `Arena.IsCorrectIff` | components/modes/KahootView.tsx:53 | with unique option ids, correct iff the id names a correct option |
| `Arena.Select` | components/modes/KahootView.tsx:46-62 | locked once selected; else stores the selection, reports on quizzes only, schedules one advance |
| `Arena.SelectIsOneShot` | components/modes/KahootView.tsx:47 | a second selection reports nothing and schedules nothing |
| `Arena.Tick` | components/modes/KahootView.tsx:34-41 | above one second it counts down; at one or less it shows 0 and makes a wrong timeout selection; stays in [0, 20] |
| `Arena.UnansweredQuestionTimesOut` | components/modes/KahootView.tsx:32-41 | with t seconds left, an unanswered question is still open after each of the first t - 1 ticks, its counter showing the seconds left, and the t-th tick times it out |
| `Arena.AfterAdvance` | components/modes/KahootView.tsx:58-61 | the delayed callback clears the selection |
| `Arena.BarWidth` | components/modes/KahootView.tsx:105 | for a clock in [0, 20] the bar width is in [0, 100] |
| `Arena.TimeoutHappensInRed` | components/modes/KahootView.tsx:107 | a timeout happens only while the bar is red and leaves it empty |
| `Arena.Tile` | components/modes/KahootView.tsx:137-139 | colour and shape come from the four-entry tables and repeat every four options |
| `Arena.NeighbourTilesDiffer` | components/modes/KahootView.tsx:17-23 | adjacent options differ in colour and shape |
| `Arena.TileMark` | components/modes/KahootView.tsx:142-150 | after a selection, correct tiles get a tick and only the chosen wrong tile a cross |
| `Arena.FadedTilesCarryNoMark` | components/modes/KahootView.tsx:128-129 | faded tiles carry no mark |
| `Learn.OnItemChange` | components/modes/LearnView.tsx:41-44 | a new item id clears selection and feedback; the same id keeps them |
| `Learn.ClickOption` | components/modes/LearnView.tsx:46-51 | ignored while feedback shows; else records the option, shows feedback, reports its correctness |
| `Learn.ClickIsOneShot` | components/modes/LearnView.tsx:46-51 | a second click reports nothing |
| `Learn.NextEnabled` | components/modes/LearnView.tsx:172 | Next is enabled iff there is a next item and the current one is a lesson or a quiz with feedback showing |
| `Learn.NextGate` | components/modes/LearnView.tsx:170-172 | on a quiz, Next is enabled exactly when there is a next item and an option has been clicked |
| `Learn.Classify` | components/modes/LearnView.tsx:226-236 | neutral before feedback; then right iff correct, wrong iff the clicked wrong option, dimmed otherwise |
| `Learn.AtMostOneWrong` | components/modes/LearnView.tsx:230 | with unique option ids at most one option is styled wrong |
| `Learn.Selected` | components/modes/LearnView.tsx:256 | the first option carrying the selected id; none exactly when no option carries it |
| `Learn.FeedbackText` | components/modes/LearnView.tsx:265 | the text is some option's feedback |
| `Learn.FeedbackTextSources` | components/modes/LearnView.tsx:265 | the clicked option's non-empty feedback, else the first correct option's, else none |
| `Learn.PanelCorrectIff` | components/modes/LearnView.tsx:256 | the panel is styled correct iff the clicked option is correct |
| `Learn.RowNumber` | components/modes/LearnView.tsx:114 | row numbers read as the one-based position, zero-padded to exactly two digits below ten and unpadded from ten on |
| `Learn.RowHeading` | components/modes/LearnView.tsx:118-122 | lessons show the title; quizzes the first min(40, length) characters of the question plus "..." |
| `Learn.CourseMap` | components/modes/LearnView.tsx:96-121 | one row per item, target = position, active iff current |
| `Learn.CourseMapRowsDistinct` | components/modes/LearnView.tsx:113-115 | no two rows carry the same number |
| `Learn.OneActiveRow` | components/modes/LearnView.tsx:97 | exactly the current row is active |
| `Session.StartIsValid` | App.tsx:32-40 | the starting session is valid |
| `Session.Enabled` | App.tsx:115-260 | the sidebar exists outside the exam only; in the exam only its own controls and callbacks act; lesson and arena controls only on their page; Next waits for a quiz answer; answered options are locked (components/modes/LearnView.tsx:172, components/modes/IELTSView.tsx:175) |
| `Session.FireAsWritten` | App.tsx:52-56 | a delayed advance tests the index of the scheduling render, then increments the current one |
| `Session.Fire` | components/modes/KahootView.tsx:58-61 | corrected delayed advance: the stale guard still decides, but the step is bounded by the current index; the arena's own callback clears its selection; validity kept |
| `Session.Apply` | App.tsx:236-260 | an enabled event keeps the session invariant; which handler each control reaches is stated by the wiring lemmas below |
| `Session.SidebarWiring` | App.tsx:155-197 | each sidebar button reaches its handler: Learning Hub, Live Quiz, Exam Simulator, Analytics and the dark-mode toggle |
| `Session.NavigationWiring` | App.tsx:241-259 | Next Step, Continue and Proceed reach `handleNext` (components/modes/LearnView.tsx:171, components/modes/KahootView.tsx:84, components/modes/IELTSView.tsx:189); Previous reaches `handlePrev`; course-map rows and exam buttons reach `handleJumpTo` (components/modes/LearnView.tsx:104, components/modes/IELTSView.tsx:205); the exam tick counts down (components/modes/IELTSView.tsx:29-31) |
| `Session.LearnChooseWiring` | components/modes/LearnView.tsx:48-51 | clicking option k records option k, shows feedback and passes option k's correctness to `handleAnswer` |
| `Session.ExamChooseWiring` | components/modes/IELTSView.tsx:70-75 | choosing option k records option k, passes its correctness to `handleAnswer` and queues one advance |
| `Session.ArenaChooseScoresPressedTile` | components/modes/KahootView.tsx:136 | with unique option ids, pressing tile k stores option k's id, scores exactly when option k is correct and queues one advance |
| `Session.Settle` | components/modes/KahootView.tsx:28-44 | the lesson view resets when it appears or the item id changes (components/modes/LearnView.tsx:41-44); the exam starts full and clears its choice when the index changes (components/modes/IELTSView.tsx:25, 35-45); the arena remounts when it appears and restarts at 20 s on a new unanswered question; views off screen are untouched; the invariant is kept |
| `Session.Step` | App.tsx:115-260 | every event keeps the session invariant, with delayed advances run by the corrected `Session.Fire`; a disabled control changes nothing |
| `Session.Run` | App.tsx:115-260 | every event sequence keeps the session invariant, with the corrected delayed advance |
| `Session.ExamIsAbsorbing` | App.tsx:115-127 | no event leaves the exam simulator |
| `Session.ExamIsAbsorbingForRuns` | App.tsx:115-127 | no event sequence leaves the exam simulator |
| `Session.ScoreOnlyGrowsByTen` | App.tsx:70-78 | one event raises the score by 0 or 10 and appends at most the current id |
| `Session.LearnAnswersOncePerVisit` | components/modes/LearnView.tsx:46-51 | with feedback showing, option clicks change nothing |
| `Session.ExamAnswersOncePerVisit` | components/modes/IELTSView.tsx:175 | with a selection recorded, option choices change nothing |
| `Session.ArenaAnswersOncePerQuestion` | components/modes/KahootView.tsx:47 | after a selection, tile presses change neither score nor queue |
| `Session.ArenaClockRunsOnlyWhileUnanswered` | components/modes/KahootView.tsx:28-29 | a tick outside an unanswered quiz in the arena changes nothing |
| `Session.ArenaTimeoutQueuesOneAdvance` | components/modes/KahootView.tsx:35-40 | a timeout reports wrong (shell unchanged), stores the marker, queues exactly one advance |
| `Session.ArenaSelect` | components/modes/KahootView.tsx:46-61 | the arena's answer goes through `handleAnswer` (App.tsx:70-78), its selection is kept, and a scheduled advance is queued for this instance and index |
| `Session.LearnJumpOpensItemUnanswered` | components/modes/LearnView.tsx:41-44 | moving the lesson view to an item with another id opens it with nothing selected and no feedback |
| `Session.ExamJumpClearsChoice` | components/modes/IELTSView.tsx:35-45 | jumping to another exam item clears the choice and keeps the clock |
| `Session.ArenaAdvanceRestartsClock` | components/modes/KahootView.tsx:28-32 | after the arena's own advance, a question shows unanswered with the full 20 s |
| `Session.ArenaAdvanceRunsOnce` | components/modes/KahootView.tsx:58-61 | the queued advance steps the shell once unless its render saw the last item, clears the selection and leaves nothing queued for the question |
| `Session.FireAgreesWithoutInterleaving` | App.tsx:52-56 | as written and corrected agree when the index did not move since scheduling |
| `Session.FireMatchesCodeWhileInRange` | App.tsx:52-56 | wherever the code as written keeps the index on an item, the corrected callback gives the same session |
| `Session.FireDiffersOnlyPastTheEnd` | App.tsx:52-56 | the two differ only where the code moves the index to the length; the correction then stays on the last item |
| `Session.StaleAdvanceFromLastItemIsIgnored` | App.tsx:53 | a callback whose render saw the last item changes nothing in the shell, even after the learner moved back |
| `Session.StaleAdvanceLeavesRange` | components/modes/IELTSView.tsx:74 | answering, then jumping to the last item before the advance runs, pushes the index past the content as written |

## Findings

| source | as written | input that shows it | evidently intended | confidence | as-written member | corrected member |
|---|---|---|---|---|---|---|
| App.tsx:52-56 | `handleNext` tests `state.currentCourseIndex` of the render that created it. The updater then increments the index current when it runs. The delayed `onNext` (components/modes/IELTSView.tsx:74 and components/modes/KahootView.tsx:59) runs that stale test. | Three items, exam simulator. Answer item 1. Press navigation button 3 within one second. The queued `onNext` tests 0 < 2 and moves the index from 2 to 3. No item has index 3. | The index never passes the last item. The stale guard still decides whether the callback acts; the increment itself is bounded by the index it applies to. | medium; not executed | `Session.FireAsWritten`, shown by `Session.StaleAdvanceLeavesRange` | `Session.Fire`, used by `Session.Step`, which keeps `Session.Valid` |

## Left out

- The landing page (3D helix, parallax) and the particle background: decorative floating-point animation with no behavioural contract.
- The teacher dashboard's chart, its mock statistics and the theme class strings: presentation of constants.
- Lesson HTML bodies and citations are opaque strings. The course content is any non-empty sequence of items.
- DOM side effects:
  - the `dark` class on the document root;
  - `scrollIntoView` of the active navigation button;
  - text-selection highlighting in the exam;
  - HTML rendering.
- Wall-clock time. Delays of 1 s and 3 s and the 1 Hz intervals are not modelled as durations. Ticks and callbacks are events in any order, so the model allows more interleavings than real time does.
- Stale closures other than the `handleNext` bound: `handleSelect` inside the arena interval, and the render-time `currentItem` read by `handleAnswer`. The model uses the values current when the event runs.
- The landing-page gate `showLanding`: the session starts after it.
- The mobile menu flag, the course-map open/closed flag and the help/hide buttons: they change nothing that is modelled.
- The "Chapter i of n" header caption, the arena's "TIME'S UP!" overlay text and the exam's selected-option highlight: display text and styles only.
- Decimal.FromNat: agrees with JavaScript's number-to-string only below 10^21, where JavaScript switches to exponent form, and only up to 2^53, where doubles stop holding every integer; the numbers printed are clock minutes (at most 40) and item positions (at most the content length).
- Exam.FormatTime: takes a natural number. JavaScript's output for negative seconds is not modelled, because the clock never goes below zero (`Exam.Tick`).
- Personality: no code path changes it, so it is constant.
- Learn.RowHeading: counts characters, while JavaScript's `slice(0, 40)` counts UTF-16 code units; they differ only for text outside the Basic Multilingual Plane.

=== FILE: arena.dfy ===
/** The gamified quiz arena: a twenty-second countdown per question whose expiry counts as
    a wrong answer, a selection lock, the answer check by option id, the single delayed
    advance, and the colour/shape tiles. */
module Arena {

  import opened Wrappers
  import opened Content

  /** Seconds per question. */
  const QuestionSeconds: int := 20

  /** The selection stored when the countdown runs out. */
  const TimeoutMarker: string := "TIMEOUT"

  datatype ArenaLocal = ArenaLocal(timeLeft: int, selected: Option<string>)

  const Mounted: ArenaLocal := ArenaLocal(QuestionSeconds, None)

  predicate TimerInRange(local: ArenaLocal) {
    0 <= local.timeLeft <= QuestionSeconds
  }

  /** The countdown runs only on a quiz that has not been answered yet. */
  predicate TimerRunning(item: CourseItem, local: ArenaLocal) {
    item.Quiz? && local.selected.None?
  }

  /** The countdown restarts when a question is shown with nothing selected. */
  function Restart(item: CourseItem, local: ArenaLocal): (r: ArenaLocal)
    ensures r.selected == local.selected
    ensures TimerRunning(item, local) ==> r.timeLeft == QuestionSeconds
    ensures !TimerRunning(item, local) ==> r == local
    ensures TimerInRange(local) ==> TimerInRange(r)
  {
    if TimerRunning(item, local) then local.(timeLeft := QuestionSeconds) else local
  }

  // ---------------------------------------------------------------- answer check

  /** `optId || 'TIMEOUT'`: a missing (or empty) option id is stored as the timeout marker. */
  function StoredSelection(optId: Option<string>): (r: string)
    ensures optId.Some? && optId.value != "" ==> r == optId.value
    ensures optId.None? ==> r == TimeoutMarker
    ensures optId == Some("") ==> r == TimeoutMarker
    ensures r != ""
  {
    if optId.Some? && optId.value != "" then optId.value else TimeoutMarker
  }

  /** `find(o => o.id === optId)?.correct || false`. */
  function IsCorrect(options: seq<AnswerOption>, optId: Option<string>): (b: bool)
    ensures optId.None? ==> !b
  {
    if optId.None? then false
    else match FindById(options, optId.value)
      case None => false
      case Some(k) => options[k].correct
  }

  /** With unique option ids, a selection is correct exactly when it names a correct option. */
  lemma IsCorrectIff(options: seq<AnswerOption>, id: string)
    requires UniqueOptionIds(options)
    ensures IsCorrect(options, Some(id)) <==> exists k :: 0 <= k < |options| && options[k].id == id && options[k].correct
  {
    match FindById(options, id)
    case None =>
    case Some(k) =>
      assert options[k].id == id;
  }

  // ---------------------------------------------------------------- selection

  /** What a selection produces: the new local state, the answer reported upwards (if any)
      and whether a delayed advance was scheduled. */
  datatype Reaction = Reaction(local: ArenaLocal, answer: Option<bool>, scheduled: bool)

  /** `handleSelect`: ignored once something is selected; otherwise stores the selection,
      reports whether it was right (on a quiz) and schedules the advance. */
  function Select(item: CourseItem, local: ArenaLocal, optId: Option<string>): (r: Reaction)
    ensures local.selected.Some? ==> r == Reaction(local, None, false)
    ensures local.selected.None? ==> r.scheduled && r.local == local.(selected := Some(StoredSelection(optId)))
    ensures local.selected.None? ==> (r.answer.Some? <==> item.Quiz?)
    ensures r.answer.Some? ==> r.answer.value == IsCorrect(item.options, optId)
    ensures r.local.selected.Some?
  {
    if local.selected.Some? then Reaction(local, None, false)
    else
      var answer := if item.Quiz? then Some(IsCorrect(item.options, optId)) else None;
      Reaction(local.(selected := Some(StoredSelection(optId))), answer, true)
  }

  /** At most one answer per question: a second selection is a no-op. */
  lemma SelectIsOneShot(item: CourseItem, local: ArenaLocal, a: Option<string>, b: Option<string>)
    requires local.selected.None?
    ensures var first := Select(item, local, a);
      var second := Select(item, first.local, b);
      second.answer.None? && !second.scheduled && second.local == first.local
  {
  }

  /** One second of the countdown. At one second or less the question times out: the
      counter shows zero and an empty selection is made, which counts as wrong. */
  function Tick(item: CourseItem, local: ArenaLocal): (r: Reaction)
    requires TimerRunning(item, local)
    ensures local.timeLeft > 1 ==> r == Reaction(local.(timeLeft := local.timeLeft - 1), None, false)
    ensures local.timeLeft <= 1 ==> r.local == ArenaLocal(0, Some(TimeoutMarker))
    ensures local.timeLeft <= 1 ==> r.answer == Some(false) && r.scheduled
    ensures TimerInRange(local) ==> TimerInRange(r.local)
  {
    if local.timeLeft <= 1 then Select(item, local.(timeLeft := 0), None)
    else Reaction(local.(timeLeft := local.timeLeft - 1), None, false)
  }

  /** A question left alone times out after exactly twenty ticks. */
  function Ticks(item: CourseItem, local: ArenaLocal, n: nat): ArenaLocal
    requires item.Quiz?
    decreases n
  {
    if n == 0 || local.selected.Some? then local
    else Ticks(item, Tick(item, local).local, n - 1)
  }

  /** Before the last tick the question is still open and the counter shows the seconds
      left; the tick that reaches zero records the timeout. */
  lemma {:induction false} UnansweredQuestionTimesOut(item: CourseItem, local: ArenaLocal)
    requires item.Quiz? && local.selected.None? && 1 <= local.timeLeft <= QuestionSeconds
    ensures forall n: nat :: n < local.timeLeft ==> Ticks(item, local, n) == local.(timeLeft := local.timeLeft - n)
    ensures Ticks(item, local, local.timeLeft as nat) == ArenaLocal(0, Some(TimeoutMarker))
    decreases local.timeLeft
  {
    var next := local.(timeLeft := local.timeLeft - 1);
    if local.timeLeft > 1 {
      UnansweredQuestionTimesOut(item, next);
    }
    forall n: nat | n < local.timeLeft
      ensures Ticks(item, local, n) == local.(timeLeft := local.timeLeft - n)
    {
      if n > 0 {
        assert Ticks(item, local, n) == Ticks(item, next, n - 1);
      }
    }
  }

  /** The delayed callback: after the shell moved on, the selection is cleared. */
  function AfterAdvance(local: ArenaLocal): (r: ArenaLocal)
    ensures r.selected.None? && r.timeLeft == local.timeLeft
  {
    local.(selected := None)
  }

  // ---------------------------------------------------------------- presentation

  /** Width of the countdown bar, in percent of the twenty seconds. */
  function BarWidth(t: int): (w: real)
    ensures 0 <= t <= QuestionSeconds ==> 0.0 <= w <= 100.0
    ensures t == QuestionSeconds ==> w == 100.0
    ensures t == 0 ==> w == 0.0
  {
    (t as real / QuestionSeconds as real) * 100.0
  }

  /** The bar turns red and pulses under five seconds. */
  predicate BarUrgent(t: int) {
    t < 5
  }

  /** A question only times out while the bar is red, and the timeout empties the bar. */
  lemma TimeoutHappensInRed(item: CourseItem, local: ArenaLocal)
    requires TimerRunning(item, local) && TimerInRange(local)
    ensures var r := Tick(item, local);
      r.answer.Some? ==> BarUrgent(local.timeLeft) && BarWidth(r.local.timeLeft) == 0.0
  {
  }

  const Colors: seq<string> := [
    "bg-red-500 hover:bg-red-600",
    "bg-blue-500 hover:bg-blue-600",
    "bg-yellow-500 hover:bg-yellow-600",
    "bg-green-500 hover:bg-green-600"
  ]

  const Shapes: seq<char> := ['▲', '◆', '●', '■']

  /** Tile of the option at position `idx`: the tables are indexed modulo four. */
  function Tile(idx: nat): (r: (string, char))
    ensures r.0 in Colors && r.1 in Shapes
    ensures r == Tile(idx % 4)
  {
    (Colors[idx % 4], Shapes[idx % 4])
  }

  /** Neighbouring options never share a colour or a shape. */
  lemma NeighbourTilesDiffer(idx: nat)
    ensures Tile(idx).0 != Tile(idx + 1).0 && Tile(idx).1 != Tile(idx + 1).1
  {
  }

  datatype Mark = NoMark | Check | Cross

  /** The overlay on a tile once something is selected: a tick on correct options, a cross
      on the chosen wrong one. */
  function TileMark(opt: AnswerOption, selected: Option<string>): (m: Mark)
    ensures selected.None? ==> m == NoMark
    ensures selected.Some? && opt.correct ==> m == Check
    ensures m == Cross <==> selected == Some(opt.id) && !opt.correct
  {
    if selected.None? then NoMark
    else if opt.correct then Check
    else if selected.value == opt.id then Cross
    else NoMark
  }

  /** Tiles other than correct or chosen ones fade once something is selected. */
  predicate TileFaded(opt: AnswerOption, selected: Option<string>) {
    selected.Some? && !opt.correct && selected.value != opt.id
  }

  lemma FadedTilesCarryNoMark(opt: AnswerOption, selected: Option<string>)
    ensures TileFaded(opt, selected) ==> TileMark(opt, selected) == NoMark
  {
  }
}

=== FILE: content.dfy ===
/** The course content model: roles, modes, personalities and the lesson/quiz items. */
module Content {

  import opened Wrappers

  /** Who is looking at the platform. */
  datatype Role = Student | Teacher

  /** Which presentation the top-level state asks for. */
  datatype Mode = Dashboard | Learn | Kahoot | Ielts

  /** The visual preset; it never influences content or scoring. */
  datatype Personality = Introvert | Extrovert | Ambivert

  /** One answer of a multiple-choice question. */
  datatype AnswerOption = AnswerOption(id: string, text: string, correct: bool, feedback: string)

  /** A course item is either a static lesson or a multiple-choice quiz; both carry an `id`. */
  datatype CourseItem =
    | Lesson(id: string, title: string, contentHtml: string, citation: string)
    | Quiz(id: string, question: string, options: seq<AnswerOption>)

  /** Item ids are used as list keys, so the fixed content never repeats one. */
  predicate UniqueIds(content: seq<CourseItem>) {
    forall i, j :: 0 <= i < j < |content| ==> content[i].id != content[j].id
  }

  /** Option ids are unique within their question. */
  predicate UniqueOptionIds(options: seq<AnswerOption>) {
    forall i, j :: 0 <= i < j < |options| ==> options[i].id != options[j].id
  }

  /** The first option of `options` whose id equals `id` (`options.find(o => o.id === id)`). */
  function FindById(options: seq<AnswerOption>, id: string): (r: Option<nat>)
    ensures r.Some? ==> r.value < |options| && options[r.value].id == id
    ensures r.Some? ==> forall j :: 0 <= j < r.value ==> options[j].id != id
    ensures r.None? <==> forall j :: 0 <= j < |options| ==> options[j].id != id
  {
    if |options| == 0 then None
    else if options[0].id == id then Some(0)
    else match FindById(options[1..], id)
      case None => None
      case Some(k) => Some(k + 1)
  }

  /** The first correct option of `options` (`options.find(o => o.correct)`). */
  function FindCorrect(options: seq<AnswerOption>): (r: Option<nat>)
    ensures r.Some? ==> r.value < |options| && options[r.value].correct
    ensures r.Some? ==> forall j :: 0 <= j < r.value ==> !options[j].correct
    ensures r.None? <==> forall j :: 0 <= j < |options| ==> !options[j].correct
  {
    if |options| == 0 then None
    else if options[0].correct then Some(0)
    else match FindCorrect(options[1..])
      case None => None
      case Some(k) => Some(k + 1)
  }
}

=== FILE: decimal.dfy ===
/** Decimal text of natural numbers, as JavaScript's number-to-string conversion and
    `String.prototype.padStart` produce it, together with a reader that inverts them. */
module Decimal {

  import opened Wrappers

  predicate IsDigit(c: char) {
    '0' <= c <= '9'
  }

  predicate AllDigits(s: string) {
    forall i :: 0 <= i < |s| ==> IsDigit(s[i])
  }

  function DigitValue(c: char): (d: nat)
    requires IsDigit(c)
    ensures d < 10
  {
    c as int - '0' as int
  }

  function DigitChar(d: nat): (c: char)
    requires d < 10
    ensures IsDigit(c) && DigitValue(c) == d
  {
    ('0' as int + d) as char
  }

  /** The number a digit string denotes, most significant digit first; "" reads as 0. */
  function Value(s: string): nat
    requires AllDigits(s)
  {
    if |s| == 0 then 0 else Value(s[..|s| - 1]) * 10 + DigitValue(s[|s| - 1])
  }

  /** The shortest decimal text of `n`: no sign, no leading zero. JavaScript prints a number
      this way only below 10^21 (exponent form from there on) and only while it is held exactly
      (up to 2^53); the numbers printed here are clock minutes and item positions. */
  function FromNat(n: nat): (r: string)
    ensures 1 <= |r| && AllDigits(r)
    ensures |r| > 1 ==> r[0] != '0'
    ensures n < 10 <==> |r| == 1
  {
    if n < 10 then [DigitChar(n)] else FromNat(n / 10) + [DigitChar(n % 10)]
  }

  /** Reading the text back gives the number: the conversion loses nothing. */
  lemma {:induction false} ValueOfFromNat(n: nat)
    ensures Value(FromNat(n)) == n
  {
    var r := FromNat(n);
    if n >= 10 {
      var a := FromNat(n / 10);
      assert r == a + [DigitChar(n % 10)];
      assert r[..|r| - 1] == a;
      ValueOfFromNat(n / 10);
    } else {
      assert r[..|r| - 1] == [];
    }
  }

  /** The inverse of `FromNat`: a non-empty digit string denotes a number, anything else is rejected. */
  function ParseNat(s: string): (r: Option<nat>)
    ensures r.Some? <==> 1 <= |s| && AllDigits(s)
  {
    if 1 <= |s| && AllDigits(s) then Some(Value(s)) else None
  }

  lemma ParseFromNat(n: nat)
    ensures ParseNat(FromNat(n)) == Some(n)
  {
    ValueOfFromNat(n);
  }

  function Repeat(c: char, k: nat): (r: string)
    ensures |r| == k
    ensures forall i :: 0 <= i < k ==> r[i] == c
  {
    if k == 0 then [] else [c] + Repeat(c, k - 1)
  }

  /** `s.padStart(width, pad)` for a one-character pad. */
  function PadStart(s: string, width: nat, pad: char): (r: string)
    ensures |r| == if |s| >= width then |s| else width
    ensures r[|r| - |s|..] == s
    ensures forall i :: 0 <= i < |r| - |s| ==> r[i] == pad
  {
    if |s| >= width then s else Repeat(pad, width - |s|) + s
  }

  lemma {:induction false} ValueOfZeros(k: nat)
    ensures AllDigits(Repeat('0', k)) && Value(Repeat('0', k)) == 0
  {
    if k > 0 {
      var z := Repeat('0', k);
      assert z[..k - 1] == Repeat('0', k - 1);
      ValueOfZeros(k - 1);
    }
  }

  /** Leading zeros never change the value of a digit string. */
  lemma {:induction false} ValueIgnoresLeadingZeros(k: nat, s: string)
    requires AllDigits(s)
    ensures AllDigits(Repeat('0', k) + s)
    ensures Value(Repeat('0', k) + s) == Value(s)
  {
    var z := Repeat('0', k);
    if |s| == 0 {
      assert z + s == z;
      ValueOfZeros(k);
    } else {
      var t := z + s;
      assert t[..|t| - 1] == z + s[..|s| - 1];
      assert t[|t| - 1] == s[|s| - 1];
      ValueIgnoresLeadingZeros(k, s[..|s| - 1]);
    }
  }

  /** Zero-padding the decimal text of `n` keeps it readable as `n`. */
  lemma PaddedValue(n: nat, width: nat)
    ensures AllDigits(PadStart(FromNat(n), width, '0'))
    ensures Value(PadStart(FromNat(n), width, '0')) == n
  {
    var s := FromNat(n);
    ValueOfFromNat(n);
    if |s| < width {
      ValueIgnoresLeadingZeros(width - |s|, s);
    }
  }
}

=== FILE: exam.dfy ===
/** The full-screen exam simulator: a forty-minute countdown with its clock text, urgency
    tiers and progress bar, the one-shot answer lock, and the item navigation strip. */
module Exam {

  import opened Wrappers
  import opened Content
  import opened Decimal

  /** Forty minutes, in seconds. */
  const Duration: int := 2400

  // ---------------------------------------------------------------- countdown

  /** One second of the countdown, floored at zero. */
  function Tick(t: int): (r: int)
    ensures r >= 0
    ensures t >= 0 ==> r <= t
    ensures t > 0 ==> r == t - 1
    ensures t <= 0 ==> r == 0
  {
    if t - 1 > 0 then t - 1 else 0
  }

  function Ticks(t: int, n: nat): int {
    if n == 0 then t else Tick(Ticks(t, n - 1))
  }

  /** After n seconds the countdown reads `max(0, t - n)`; once at zero it stays there. */
  lemma {:induction false} TicksFloor(t: int, n: nat)
    requires t >= 0
    ensures Ticks(t, n) == if t - n > 0 then t - n else 0
  {
    if n > 0 {
      TicksFloor(t, n - 1);
    }
  }

  /** The timer starts at 2400 and reads zero after 2400 seconds and for ever after. */
  lemma ExamEndsAtZero(n: nat)
    requires n >= Duration
    ensures Ticks(Duration, n) == 0
  {
    TicksFloor(Duration, n);
  }

  // ---------------------------------------------------------------- clock text

  /** The seconds field: a leading zero below ten, then the decimal text. */
  function SecondsField(s: nat): (r: string)
    requires s < 60
    ensures |r| == 2 && AllDigits(r) && Value(r) == s
  {
    ValueOfFromNat(s);
    var d := FromNat(s);
    if s < 10 then
      assert ("0" + d)[..1] == "0";
      "0" + d
    else d
  }

  /** `formatTime`: whole minutes, a colon, then two-digit seconds ("40:00", "1:05"). */
  function FormatTime(seconds: nat): (r: string)
    ensures |r| >= 4 && r[|r| - 3] == ':'
    ensures AllDigits(r[..|r| - 3]) && AllDigits(r[|r| - 2..])
    ensures |r| > 4 ==> r[0] != '0'
  {
    var m := FromNat(seconds / 60);
    var r := m + ":" + SecondsField(seconds % 60);
    assert r[..|r| - 3] == m;
    r
  }

  /** Reads a clock text back: minutes, a colon, and exactly two digits worth less than 60. */
  function ParseClock(r: string): (t: Option<nat>)
    ensures t.Some? ==> |r| >= 4 && r[|r| - 3] == ':'
  {
    if |r| >= 4 && r[|r| - 3] == ':' && AllDigits(r[..|r| - 3]) && AllDigits(r[|r| - 2..])
       && Value(r[|r| - 2..]) < 60
    then Some(Value(r[..|r| - 3]) * 60 + Value(r[|r| - 2..]))
    else None
  }

  /** The clock text loses nothing: reading it back gives the number of seconds. */
  lemma FormatTimeRoundTrip(seconds: nat)
    ensures ParseClock(FormatTime(seconds)) == Some(seconds)
  {
    var m := FromNat(seconds / 60);
    var f := SecondsField(seconds % 60);
    var r := FormatTime(seconds);
    assert r == m + ":" + f;
    assert r[..|r| - 3] == m;
    assert r[|r| - 2..] == f;
    ValueOfFromNat(seconds / 60);
  }

  /** Different times never show the same text. */
  lemma FormatTimeInjective(a: nat, b: nat)
    requires FormatTime(a) == FormatTime(b)
    ensures a == b
  {
    FormatTimeRoundTrip(a);
    FormatTimeRoundTrip(b);
  }

  lemma FormatTimeExamples()
    ensures FormatTime(2400) == "40:00"
    ensures FormatTime(0) == "0:00"
    ensures FormatTime(65) == "1:05"
  {
    assert FromNat(4) == "4";
    assert FromNat(40) == "40";
    assert FromNat(0) == "0";
    assert FromNat(1) == "1";
    assert FromNat(5) == "5";
  }

  // ---------------------------------------------------------------- urgency

  datatype Tier = Green | Yellow | Red

  /** `getTimerStatus`: more than five minutes is green, more than one minute yellow, the rest red. */
  function TimerTier(t: int): (r: Tier)
    ensures r == Green <==> t > 300
    ensures r == Red <==> t <= 60
    ensures r == Yellow <==> 60 < t <= 300
  {
    if t > 300 then Green else if t > 60 then Yellow else Red
  }

  /** The clock pulses under thirty seconds. */
  predicate IsUrgent(t: int) {
    t < 30
  }

  /** The pulsing clock is always red. */
  lemma UrgentImpliesRed(t: int)
    ensures IsUrgent(t) ==> TimerTier(t) == Red
  {
  }

  /** Counting down never moves the tier back towards green. */
  lemma TierNeverRecovers(t: int)
    ensures TimerTier(t) == Red ==> TimerTier(Tick(t)) == Red
    ensures TimerTier(t) == Yellow ==> TimerTier(Tick(t)) != Green
  {
  }

  /** Width of the progress bar, in percent. */
  function ProgressWidth(t: int): (w: real)
    ensures 0 <= t <= Duration ==> 0.0 <= w <= 100.0
    ensures t == Duration ==> w == 100.0
    ensures t == 0 ==> w == 0.0
  {
    (t as real / Duration as real) * 100.0
  }

  lemma ProgressWidthMonotonic(t: int, u: int)
    requires t <= u
    ensures ProgressWidth(t) <= ProgressWidth(u)
  {
  }

  // ---------------------------------------------------------------- answer lock

  /** The view's own state: the countdown and the submitted option, if any. */
  datatype ExamLocal = ExamLocal(timeLeft: int, selected: Option<string>)

  const Mounted: ExamLocal := ExamLocal(Duration, None)

  /** What a submission produces: the new local state, the answer reported upwards (if any)
      and how many delayed "next" calls it schedules. */
  datatype Submission = Submission(local: ExamLocal, answer: Option<bool>, advances: nat)

  /** Choosing an option. The radio inputs are disabled once an option was chosen, so a
      second choice does nothing; the first one is recorded, reported, and schedules one
      "next" a second later. */
  function Submit(local: ExamLocal, opt: AnswerOption): (r: Submission)
    ensures local.selected.Some? ==> r == Submission(local, None, 0)
    ensures local.selected.None? ==> r.local.selected == Some(opt.id) && r.answer == Some(opt.correct) && r.advances == 1
    ensures r.local.timeLeft == local.timeLeft
    ensures r.local.selected.Some?
  {
    if local.selected.Some? then Submission(local, None, 0)
    else Submission(local.(selected := Some(opt.id)), Some(opt.correct), 1)
  }

  /** Two submissions without an item change report one answer and schedule one advance. */
  lemma SubmitIsOneShot(local: ExamLocal, a: AnswerOption, b: AnswerOption)
    requires local.selected.None?
    ensures var first := Submit(local, a);
      var second := Submit(first.local, b);
      second.answer == None && second.advances == 0 && second.local == first.local
  {
  }

  /** Moving to another item clears the selection, which re-enables the inputs. */
  function OnIndexChange(local: ExamLocal, before: int, after: int): (r: ExamLocal)
    ensures r.timeLeft == local.timeLeft
    ensures before != after ==> r.selected.None?
    ensures before == after ==> r == local
  {
    if before != after then local.(selected := None) else local
  }

  // ---------------------------------------------------------------- navigation strip

  datatype NavButton = NavButton(target: nat, caption: string, highlighted: bool)

  /** One numbered button per item; the current one is highlighted. */
  function NavStrip(totalItems: nat, currentIndex: int): (r: seq<NavButton>)
    ensures |r| == totalItems
    ensures forall i :: 0 <= i < |r| ==> r[i].target == i && r[i].target < totalItems
    ensures forall i :: 0 <= i < |r| ==> (r[i].highlighted <==> i == currentIndex)
    ensures forall i :: 0 <= i < |r| ==> ParseNat(r[i].caption) == Some(i + 1)
    ensures forall i :: 0 <= i < |r| ==> r[i].caption == Caption(i)
  {
    seq(totalItems, i requires 0 <= i < totalItems => NavButton(i, Caption(i), i == currentIndex))
  }

  /** The caption of button `i`: its one-based position. */
  function Caption(i: nat): (r: string)
    ensures ParseNat(r) == Some(i + 1)
    ensures 0 < |r| && (|r| > 1 ==> r[0] != '0')
  {
    ParseFromNat(i + 1);
    FromNat(i + 1)
  }

  /** Exactly one button is highlighted when the index names an item. */
  lemma OneHighlightedButton(totalItems: nat, currentIndex: int)
    requires 0 <= currentIndex < totalItems
    ensures var r := NavStrip(totalItems, currentIndex);
      (set i | 0 <= i < |r| && r[i].highlighted) == {currentIndex}
  {
    var r := NavStrip(totalItems, currentIndex);
    assert r[currentIndex].highlighted;
  }
}

=== FILE: learn.dfy ===
/** The lesson view: one answer per item visit, the Previous/Next gating, the per-option
    feedback styling and text, and the course map. */
module Learn {

  import opened Wrappers
  import opened Content
  import opened Decimal

  /** The view's own state: the clicked option and whether feedback is showing. */
  datatype LearnLocal = LearnLocal(selected: Option<string>, showFeedback: bool)

  const Mounted: LearnLocal := LearnLocal(None, false)

  /** Feedback is showing exactly when an option has been clicked. */
  predicate Consistent(local: LearnLocal) {
    local.showFeedback <==> local.selected.Some?
  }

  /** A new item (a different id) starts with nothing clicked and no feedback. */
  function OnItemChange(local: LearnLocal, beforeId: string, afterId: string): (r: LearnLocal)
    ensures beforeId != afterId ==> r == Mounted
    ensures beforeId == afterId ==> r == local
    ensures Consistent(local) ==> Consistent(r)
  {
    if beforeId != afterId then Mounted else local
  }

  /** What clicking an option produces: the new local state and the answer reported upwards. */
  datatype Click = Click(local: LearnLocal, answer: Option<bool>)

  /** `handleOptionClick`: ignored while feedback shows; otherwise records the option, shows
      feedback and reports whether the option is correct. */
  function ClickOption(local: LearnLocal, opt: AnswerOption): (r: Click)
    ensures local.showFeedback ==> r == Click(local, None)
    ensures !local.showFeedback ==> r.local == LearnLocal(Some(opt.id), true) && r.answer == Some(opt.correct)
    ensures r.local.showFeedback
    ensures Consistent(local) ==> Consistent(r.local)
  {
    if local.showFeedback then Click(local, None)
    else Click(LearnLocal(Some(opt.id), true), Some(opt.correct))
  }

  /** At most one answer per item visit. */
  lemma ClickIsOneShot(local: LearnLocal, a: AnswerOption, b: AnswerOption)
    ensures var first := ClickOption(local, a);
      var second := ClickOption(first.local, b);
      second.answer.None? && second.local == first.local
  {
  }

  // ---------------------------------------------------------------- navigation buttons

  /** "Next Step" is enabled when there is a next item and the current one is a lesson or a
      quiz whose feedback is showing. */
  function NextEnabled(hasNext: bool, item: CourseItem, showFeedback: bool): (b: bool)
    ensures b ==> hasNext
    ensures item.Lesson? ==> (b <==> hasNext)
    ensures item.Quiz? ==> (b <==> hasNext && showFeedback)
  {
    hasNext && !(item.Quiz? && !showFeedback)
  }

  /** "Previous" is enabled when there is a previous item. */
  predicate PrevEnabled(hasPrev: bool) {
    hasPrev
  }

  /** In a consistent view, Next on a quiz waits exactly for an option to be clicked. */
  lemma NextGate(hasNext: bool, item: CourseItem, local: LearnLocal)
    requires Consistent(local) && item.Quiz?
    ensures NextEnabled(hasNext, item, local.showFeedback) <==> hasNext && local.selected.Some?
  {
  }

  // ---------------------------------------------------------------- feedback

  datatype Look = Neutral | Right | Wrong | Dimmed

  /** Styling of one option: neutral before feedback; afterwards correct options are marked
      right, the clicked wrong one wrong, and the rest dimmed. */
  function Classify(opt: AnswerOption, selected: Option<string>, showFeedback: bool): (l: Look)
    ensures !showFeedback ==> l == Neutral
    ensures showFeedback ==> (l == Right <==> opt.correct)
    ensures showFeedback ==> (l == Wrong <==> !opt.correct && selected == Some(opt.id))
    ensures showFeedback ==> (l == Dimmed <==> !opt.correct && selected != Some(opt.id))
  {
    if !showFeedback then Neutral
    else if opt.correct then Right
    else if selected == Some(opt.id) then Wrong
    else Dimmed
  }

  /** With unique option ids at most one option is styled wrong, and only the clicked one. */
  lemma AtMostOneWrong(options: seq<AnswerOption>, selected: Option<string>, i: nat, j: nat)
    requires UniqueOptionIds(options)
    requires i < |options| && j < |options|
    requires Classify(options[i], selected, true) == Wrong && Classify(options[j], selected, true) == Wrong
    ensures i == j
  {
  }

  /** The option a selection refers to, if any. */
  function Selected(options: seq<AnswerOption>, selected: Option<string>): (r: Option<nat>)
    ensures r.Some? ==> selected.Some? && r.value < |options| && options[r.value].id == selected.value
    ensures selected.None? ==> r.None?
    ensures selected.Some? && (exists k :: 0 <= k < |options| && options[k].id == selected.value) ==>
      r.Some? && forall j :: 0 <= j < r.value ==> options[j].id != selected.value
  {
    if selected.None? then None else FindById(options, selected.value)
  }

  /** `selectedOpt?.feedback || firstCorrect?.feedback`: the clicked option's feedback, or,
      when it is missing or empty, the first correct option's feedback. */
  function FeedbackText(options: seq<AnswerOption>, selected: Option<string>): (r: Option<string>)
    ensures r.Some? ==> exists k :: 0 <= k < |options| && options[k].feedback == r.value
  {
    var s := Selected(options, selected);
    if s.Some? && options[s.value].feedback != "" then Some(options[s.value].feedback)
    else match FindCorrect(options)
      case Some(c) => Some(options[c].feedback)
      case None => None
  }

  lemma FeedbackTextSources(options: seq<AnswerOption>, selected: Option<string>)
    ensures var s := Selected(options, selected);
      s.Some? && options[s.value].feedback != "" ==> FeedbackText(options, selected) == Some(options[s.value].feedback)
    ensures var s := Selected(options, selected);
      (s.None? || options[s.value].feedback == "") ==>
        (FeedbackText(options, selected).Some? <==> exists k :: 0 <= k < |options| && options[k].correct)
    ensures var s := Selected(options, selected); var c := FindCorrect(options);
      (s.None? || options[s.value].feedback == "") && c.Some? ==>
        FeedbackText(options, selected) == Some(options[c.value].feedback)
  {
  }

  /** The feedback panel uses the "correct" style exactly when the clicked option is correct. */
  predicate PanelCorrect(options: seq<AnswerOption>, selected: Option<string>) {
    var s := Selected(options, selected);
    s.Some? && options[s.value].correct
  }

  lemma PanelCorrectIff(options: seq<AnswerOption>, id: string)
    requires UniqueOptionIds(options)
    ensures PanelCorrect(options, Some(id)) <==> exists k :: 0 <= k < |options| && options[k].id == id && options[k].correct
  {
    var s := Selected(options, Some(id));
    if s.None? {
      assert forall j :: 0 <= j < |options| ==> options[j].id != id;
    }
  }

  // ---------------------------------------------------------------- course map

  /** How many characters of a quiz question a course-map row shows. */
  const QuestionPreview: nat := 40

  datatype MapRow = MapRow(number: string, heading: string, isQuiz: bool, active: bool, target: nat)

  /** The row number: the one-based position, zero-padded to two digits. */
  function RowNumber(idx: nat): (r: string)
    ensures AllDigits(r) && Value(r) == idx + 1
    ensures |r| == if idx + 1 < 10 then 2 else |FromNat(idx + 1)|
    ensures idx + 1 < 10 ==> r[0] == '0'
  {
    PaddedValue(idx + 1, 2);
    PadStart(FromNat(idx + 1), 2, '0')
  }

  /** A lesson shows its title; a quiz the first forty characters of its question and "...". */
  function RowHeading(item: CourseItem): (r: string)
    ensures item.Lesson? ==> r == item.title
    ensures item.Quiz? ==> exists p :: p <= item.question && |p| <= QuestionPreview && r == p + "..."
    ensures item.Quiz? ==> |r| == (if |item.question| <= QuestionPreview then |item.question| else QuestionPreview) + 3
    ensures item.Quiz? ==> r[..|r| - 3] <= item.question
  {
    match item
    case Lesson(_, title, _, _) => title
    case Quiz(_, question, _) =>
      var p := if |question| <= QuestionPreview then question else question[..QuestionPreview];
      p + "..."
  }

  function CourseMap(content: seq<CourseItem>, currentIndex: int): (rows: seq<MapRow>)
    ensures |rows| == |content|
    ensures forall i :: 0 <= i < |rows| ==> rows[i].target == i && (rows[i].active <==> i == currentIndex)
    ensures forall i :: 0 <= i < |rows| ==> rows[i].isQuiz == content[i].Quiz? && rows[i].heading == RowHeading(content[i])
    ensures forall i :: 0 <= i < |rows| ==> rows[i].number == RowNumber(i)
  {
    seq(|content|, i requires 0 <= i < |content| =>
      MapRow(RowNumber(i), RowHeading(content[i]), content[i].Quiz?, i == currentIndex, i))
  }

  /** Row numbers are distinct, and exactly one row is active when the index names an item. */
  lemma CourseMapRowsDistinct(content: seq<CourseItem>, currentIndex: int, i: nat, j: nat)
    requires i < |content| && j < |content| && i != j
    ensures CourseMap(content, currentIndex)[i].number != CourseMap(content, currentIndex)[j].number
  {
    var rows := CourseMap(content, currentIndex);
    assert Value(rows[i].number) != Value(rows[j].number);
  }

  lemma OneActiveRow(content: seq<CourseItem>, currentIndex: int)
    requires 0 <= currentIndex < |content|
    ensures var rows := CourseMap(content, currentIndex);
      (set i | 0 <= i < |rows| && rows[i].active) == {currentIndex}
  {
    var rows := CourseMap(content, currentIndex);
    assert rows[currentIndex].active;
  }
}

=== FILE: progress.dfy ===
/** The learner-progress state of the application shell and its transitions: navigation,
    answer recording, the sidebar's mode/role switches, the dark-mode toggle, and the
    choice of the page that is rendered. `content` is the fixed course sequence. */
module Progress {

  import opened Content

  datatype AppState = AppState(
    role: Role,
    mode: Mode,
    personality: Personality,
    darkMode: bool,
    currentCourseIndex: int,
    score: int,
    completedIds: seq<string>)

  /** Points awarded for one correct answer. */
  const PointsPerCorrect: int := 10

  /** The state a session starts in. */
  const Initial: AppState := AppState(Student, Learn, Ambivert, true, 0, 0, [])

  predicate IndexInRange(content: seq<CourseItem>, s: AppState) {
    0 <= s.currentCourseIndex < |content|
  }

  /** Every correct answer is worth ten points and leaves one entry in `completedIds`. */
  predicate ScoreMatchesCompletions(s: AppState) {
    s.score == PointsPerCorrect * |s.completedIds|
  }

  /** The dashboard mode is only ever stored together with the teacher role. */
  predicate DashboardIsTeachers(s: AppState) {
    s.mode == Dashboard ==> s.role == Teacher
  }

  /** The invariant every reachable state keeps. */
  predicate Valid(content: seq<CourseItem>, s: AppState) {
    && IndexInRange(content, s)
    && ScoreMatchesCompletions(s)
    && DashboardIsTeachers(s)
  }

  /** `r` agrees with `s` on everything except possibly the current index. */
  predicate OnlyIndexMoved(s: AppState, r: AppState) {
    r == s.(currentCourseIndex := r.currentCourseIndex)
  }

  /** `r` agrees with `s` on the learner's progress: index, score, completions, theme, dark mode. */
  predicate SameProgress(s: AppState, r: AppState) {
    r == s.(mode := r.mode, role := r.role)
  }

  lemma InitialIsValid(content: seq<CourseItem>)
    requires |content| > 0
    ensures Valid(content, Initial)
  {
  }

  // ---------------------------------------------------------------- navigation

  /** `handleNext`: move one item forward unless already on the last one. */
  function Next(content: seq<CourseItem>, s: AppState): (r: AppState)
    ensures OnlyIndexMoved(s, r)
    ensures r.currentCourseIndex == s.currentCourseIndex + 1 <==> s.currentCourseIndex < |content| - 1
    ensures r.currentCourseIndex != s.currentCourseIndex ==> r.currentCourseIndex == s.currentCourseIndex + 1
    ensures Valid(content, s) ==> Valid(content, r)
  {
    if s.currentCourseIndex < |content| - 1 then s.(currentCourseIndex := s.currentCourseIndex + 1) else s
  }

  /** `handlePrev`: move one item back unless already on the first one. */
  function Prev(s: AppState): (r: AppState)
    ensures OnlyIndexMoved(s, r)
    ensures r.currentCourseIndex == s.currentCourseIndex - 1 <==> s.currentCourseIndex > 0
    ensures r.currentCourseIndex != s.currentCourseIndex ==> r.currentCourseIndex == s.currentCourseIndex - 1
    ensures forall content: seq<CourseItem> :: Valid(content, s) ==> Valid(content, r)
  {
    if s.currentCourseIndex > 0 then s.(currentCourseIndex := s.currentCourseIndex - 1) else s
  }

  /** `handleJumpTo`: go to position `index` if it names an item; otherwise ignore the request. */
  function JumpTo(content: seq<CourseItem>, s: AppState, index: int): (r: AppState)
    ensures OnlyIndexMoved(s, r)
    ensures 0 <= index < |content| <==> r.currentCourseIndex == index && IndexInRange(content, r)
    ensures !(0 <= index < |content|) ==> r == s
    ensures Valid(content, s) ==> Valid(content, r)
  {
    if 0 <= index && index < |content| then s.(currentCourseIndex := index) else s
  }

  // ---------------------------------------------------------------- answers

  /** `handleAnswer`: a correct answer earns ten points and records the current item as
      completed (again, if it already was); a wrong one changes nothing. */
  function Answer(content: seq<CourseItem>, s: AppState, isCorrect: bool): (r: AppState)
    requires isCorrect ==> IndexInRange(content, s)
    ensures !isCorrect ==> r == s
    ensures isCorrect ==> r.score == s.score + PointsPerCorrect
    ensures isCorrect ==> r.completedIds == s.completedIds + [content[s.currentCourseIndex].id]
    ensures isCorrect ==> r == s.(score := r.score, completedIds := r.completedIds)
    ensures ScoreMatchesCompletions(s) ==> ScoreMatchesCompletions(r)
    ensures Valid(content, s) ==> Valid(content, r)
  {
    if isCorrect then
      s.(score := s.score + PointsPerCorrect,
         completedIds := s.completedIds + [content[s.currentCourseIndex].id])
    else s
  }

  /** Re-answering an item correctly records its id once more: completions are not deduplicated. */
  lemma AnswerDoesNotDeduplicate(content: seq<CourseItem>, s: AppState)
    requires IndexInRange(content, s)
    ensures var id := content[s.currentCourseIndex].id;
      multiset(Answer(content, s, true).completedIds)[id] == multiset(s.completedIds)[id] + 1
  {
    var id := content[s.currentCourseIndex].id;
    assert multiset(s.completedIds + [id]) == multiset(s.completedIds) + multiset{id};
  }

  // ---------------------------------------------------------------- sidebar

  /** Which pages there are to render. `Blank` is the empty content area a student gets if
      the stored mode is the dashboard; no reachable state shows it. */
  datatype Page = ExamPage | DashboardPage | LearnPage | ArenaPage | Blank

  /** The exam simulator takes the whole screen for any role; otherwise a teacher sees the
      dashboard; otherwise the mode chooses between the lesson and the quiz arena. */
  function ShownPage(s: AppState): (p: Page)
    ensures p == ExamPage <==> s.mode == Ielts
    ensures p == DashboardPage <==> s.mode != Ielts && s.role == Teacher
    ensures p == LearnPage <==> s.mode == Learn && s.role == Student
    ensures p == ArenaPage <==> s.mode == Kahoot && s.role == Student
    ensures p == Blank <==> s.mode == Dashboard && s.role == Student
  {
    match (s.mode, s.role)
    case (Ielts, _) => ExamPage
    case (_, Teacher) => DashboardPage
    case (Learn, Student) => LearnPage
    case (Kahoot, Student) => ArenaPage
    case (Dashboard, Student) => Blank
  }

  lemma ValidNeverBlank(content: seq<CourseItem>, s: AppState)
    requires Valid(content, s)
    ensures ShownPage(s) != Blank
  {
  }

  /** The sidebar belongs to the windowed layout; the full-screen exam has none. */
  predicate SidebarShown(s: AppState) {
    s.mode != Ielts
  }

  /** The highlighted state of each sidebar pill. */
  predicate LearningHubActive(s: AppState) { s.mode == Learn && s.role == Student }
  predicate KahootArenaActive(s: AppState) { s.mode == Kahoot }
  predicate ExamSimulatorActive(s: AppState) { s.mode == Ielts }
  predicate AnalyticsActive(s: AppState) { s.role == Teacher }

  /** "Learning Hub": back to the student's lesson view. */
  function ChooseLearningHub(s: AppState): (r: AppState)
    ensures SameProgress(s, r)
    ensures LearningHubActive(r) && !AnalyticsActive(r) && !KahootArenaActive(r)
    ensures ShownPage(r) == LearnPage
    ensures forall content: seq<CourseItem> :: Valid(content, s) ==> Valid(content, r)
  {
    s.(mode := Learn, role := Student)
  }

  /** "Kahoot Arena": switches the mode only; a teacher keeps seeing the dashboard. */
  function ChooseKahootArena(s: AppState): (r: AppState)
    ensures SameProgress(s, r) && r.role == s.role
    ensures KahootArenaActive(r)
    ensures ShownPage(r) == (if s.role == Teacher then DashboardPage else ArenaPage)
    ensures forall content: seq<CourseItem> :: Valid(content, s) ==> Valid(content, r)
  {
    s.(mode := Kahoot)
  }

  /** "Exam Simulator": switches the mode only, and the exam is shown whatever the role. */
  function ChooseExamSimulator(s: AppState): (r: AppState)
    ensures SameProgress(s, r) && r.role == s.role
    ensures ExamSimulatorActive(r)
    ensures ShownPage(r) == ExamPage && !SidebarShown(r)
    ensures forall content: seq<CourseItem> :: Valid(content, s) ==> Valid(content, r)
  {
    s.(mode := Ielts)
  }

  /** "Analytics": the teacher's dashboard. */
  function ChooseAnalytics(s: AppState): (r: AppState)
    ensures SameProgress(s, r)
    ensures r.mode == Dashboard && r.role == Teacher
    ensures AnalyticsActive(r) && !LearningHubActive(r)
    ensures ShownPage(r) == DashboardPage
    ensures forall content: seq<CourseItem> :: Valid(content, s) ==> Valid(content, r)
  {
    s.(mode := Dashboard, role := Teacher)
  }

  /** The moon/sun button flips dark mode and nothing else. */
  function ToggleDarkMode(s: AppState): (r: AppState)
    ensures r.darkMode != s.darkMode
    ensures r.(darkMode := s.darkMode) == s
    ensures ShownPage(r) == ShownPage(s)
    ensures forall content: seq<CourseItem> :: Valid(content, s) ==> Valid(content, r)
  {
    s.(darkMode := !s.darkMode)
  }

  lemma ToggleDarkModeInvolution(s: AppState)
    ensures ToggleDarkMode(ToggleDarkMode(s)) == s
  {
  }

  /** Going to the dashboard and back to the Learning Hub lands on the lesson view whatever
      mode was stored before: the previous mode is not restored. */
  lemma LearningHubDoesNotRestoreMode(s: AppState)
    ensures ChooseLearningHub(ChooseAnalytics(s)).mode == Learn
    ensures s.mode == Kahoot ==> ChooseLearningHub(ChooseAnalytics(s)).mode != s.mode
  {
  }

  // ---------------------------------------------------------------- header

  /** The window header's title. It follows the mode, not the page: a teacher who picks the
      quiz arena sees the dashboard under the title "Live Quiz". */
  function HeaderTitle(s: AppState): (r: string)
    ensures r == "Interactive Lesson" <==> s.mode == Learn
    ensures r == "Live Quiz" <==> s.mode == Kahoot
    ensures r == "Teacher Dashboard" <==> (s.mode == Dashboard || s.mode == Ielts)
    ensures s.role == Teacher && s.mode == Kahoot ==> ShownPage(s) == DashboardPage && r != "Teacher Dashboard"
  {
    match s.mode
    case Learn => "Interactive Lesson"
    case Kahoot => "Live Quiz"
    case _ => "Teacher Dashboard"
  }

  lemma HeaderTitleNamesStudentPages(s: AppState)
    requires s.role == Student && SidebarShown(s)
    ensures ShownPage(s) == LearnPage ==> HeaderTitle(s) == "Interactive Lesson"
    ensures ShownPage(s) == ArenaPage ==> HeaderTitle(s) == "Live Quiz"
  {
  }

  // ---------------------------------------------------------------- multi-step facts

  /** Forward then back returns to the same state whenever the step forward moved. */
  lemma PrevUndoesNext(content: seq<CourseItem>, s: AppState)
    requires 0 <= s.currentCourseIndex < |content| - 1
    ensures Prev(Next(content, s)) == s
  {
  }

  lemma NextUndoesPrev(content: seq<CourseItem>, s: AppState)
    requires 0 < s.currentCourseIndex < |content|
    ensures Next(content, Prev(s)) == s
  {
  }

  /** `n` presses of "next". */
  function NextTimes(content: seq<CourseItem>, s: AppState, n: nat): AppState {
    if n == 0 then s else Next(content, NextTimes(content, s, n - 1))
  }

  /** Pressing "next" n times moves n items forward but never past the last item. */
  lemma {:induction false} NextTimesStopsAtLast(content: seq<CourseItem>, s: AppState, n: nat)
    requires IndexInRange(content, s)
    ensures var i := s.currentCourseIndex + n;
      NextTimes(content, s, n).currentCourseIndex == if i < |content| - 1 then i else |content| - 1
    ensures OnlyIndexMoved(s, NextTimes(content, s, n))
  {
    if n > 0 {
      NextTimesStopsAtLast(content, s, n - 1);
    }
  }

  /** A jump lands on the item at the requested position. */
  lemma JumpShowsRequestedItem(content: seq<CourseItem>, s: AppState, index: int)
    requires 0 <= index < |content|
    ensures var r := JumpTo(content, s, index); IndexInRange(content, r) && content[r.currentCourseIndex] == content[index]
  {
  }

  /** The two-item walkthrough: a lesson, then a quiz answered correctly. */
  lemma LessonThenQuizWalkthrough(l1: CourseItem, q1: CourseItem)
    requires l1.Lesson? && q1.Quiz? && q1.id == "Q1"
    ensures var content := [l1, q1];
      var s1 := Next(content, Initial);
      var s2 := Answer(content, s1, true);
      var s3 := Next(content, s2);
      s1.currentCourseIndex == 1 && s2.score == 10 && s2.completedIds == ["Q1"] && s3 == s2
  {
  }
}

=== FILE: session.dfy ===
/** The whole client as one event-driven state machine: the shell's progress state, the
    local state of the three interactive views, and the delayed "next" callbacks that have
    been scheduled but have not run. Every user action, timer tick and callback is one
    `Event`; an event whose control is not on screen (or is disabled) changes nothing. */
module Session {

  import opened Wrappers
  import opened Content
  import opened Progress
  import Exam
  import Arena
  import Learn

  /** A scheduled `setTimeout` callback. `guardIndex` is the course index the scheduling
      render saw; an arena callback also names the arena instance (`mount`) whose selection
      it clears. */
  datatype Pending =
    | ExamAdvance(guardIndex: int)
    | ArenaAdvance(guardIndex: int, mount: nat)

  datatype Session = Session(
    app: AppState,
    exam: Exam.ExamLocal,
    arena: Arena.ArenaLocal,
    arenaMount: nat,
    learn: Learn.LearnLocal,
    pending: seq<Pending>)

  /** The session right after the landing page: the lesson view on the first item. */
  const Start: Session := Session(Initial, Exam.Mounted, Arena.Mounted, 0, Learn.Mounted, [])

  datatype Event =
    // sidebar
    | LearningHub | KahootArena | ExamSimulator | Analytics | DarkModeToggle
    // lesson view
    | LearnNext | LearnPrev | LearnJump(row: nat) | LearnChoose(option: nat)
    // quiz arena
    | ArenaContinue | ArenaChoose(option: nat) | ArenaTick
    // exam simulator
    | ExamTick | ExamProceed | ExamChoose(option: nat) | ExamJump(button: nat)
    // a scheduled callback runs
    | CallbackDue(slot: nat)

  // ---------------------------------------------------------------- bookkeeping of callbacks

  predicate IsArenaFor(p: Pending, mount: nat) {
    p.ArenaAdvance? && p.mount == mount
  }

  /** How many pending callbacks belong to arena instance `mount`. */
  function ArenaPendings(pending: seq<Pending>, mount: nat): nat {
    if |pending| == 0 then 0
    else ArenaPendings(pending[..|pending| - 1], mount) + (if IsArenaFor(pending[|pending| - 1], mount) then 1 else 0)
  }

  function RemoveAt(pending: seq<Pending>, k: nat): (r: seq<Pending>)
    requires k < |pending|
    ensures |r| == |pending| - 1
    ensures forall i :: 0 <= i < |r| ==> r[i] == if i < k then pending[i] else pending[i + 1]
  {
    pending[..k] + pending[k + 1..]
  }

  lemma {:induction false} ArenaPendingsAppend(pending: seq<Pending>, p: Pending, mount: nat)
    ensures ArenaPendings(pending + [p], mount) == ArenaPendings(pending, mount) + (if IsArenaFor(p, mount) then 1 else 0)
  {
    assert (pending + [p])[..|pending|] == pending;
  }

  lemma {:induction false} ArenaPendingsRemove(pending: seq<Pending>, k: nat, mount: nat)
    requires k < |pending|
    ensures ArenaPendings(pending, mount) == ArenaPendings(RemoveAt(pending, k), mount) + (if IsArenaFor(pending[k], mount) then 1 else 0)
    decreases |pending|
  {
    var n := |pending|;
    if k == n - 1 {
      assert RemoveAt(pending, k) == pending[..n - 1];
    } else {
      var front := pending[..n - 1];
      assert RemoveAt(pending, k) == RemoveAt(front, k) + [pending[n - 1]];
      ArenaPendingsRemove(front, k, mount);
      ArenaPendingsAppend(RemoveAt(front, k), pending[n - 1], mount);
    }
  }

  /** Callbacks of an arena instance that has not been mounted yet do not exist. */
  lemma {:induction false} NoArenaPendingsAbove(pending: seq<Pending>, mount: nat)
    requires forall i :: 0 <= i < |pending| && pending[i].ArenaAdvance? ==> pending[i].mount < mount
    ensures ArenaPendings(pending, mount) == 0
    decreases |pending|
  {
    if |pending| > 0 {
      NoArenaPendingsAbove(pending[..|pending| - 1], mount);
    }
  }

  predicate MountsSeen(pending: seq<Pending>, mount: nat) {
    forall i :: 0 <= i < |pending| && pending[i].ArenaAdvance? ==> pending[i].mount <= mount
  }

  // ---------------------------------------------------------------- invariant

  /** The invariant of every reachable session:
      - the shell's state is valid (index in range, score = 10 per completion, the
        dashboard mode only with the teacher role);
      - both countdowns stay within their ranges;
      - the lesson view shows feedback exactly when an option was clicked;
      - the current arena instance has exactly one pending advance while it holds a
        selection and none otherwise. */
  predicate Valid(content: seq<CourseItem>, s: Session) {
    && Progress.Valid(content, s.app)
    && 0 <= s.exam.timeLeft <= Exam.Duration
    && Arena.TimerInRange(s.arena)
    && Learn.Consistent(s.learn)
    && MountsSeen(s.pending, s.arenaMount)
    && ArenaPendings(s.pending, s.arenaMount) == (if s.arena.selected.Some? then 1 else 0)
  }

  lemma StartIsValid(content: seq<CourseItem>)
    requires |content| > 0
    ensures Valid(content, Start)
  {
  }

  function CurrentItem(content: seq<CourseItem>, s: Session): CourseItem
    requires IndexInRange(content, s.app)
  {
    content[s.app.currentCourseIndex]
  }

  // ---------------------------------------------------------------- which controls exist

  /** Whether the control behind `e` is on screen and enabled. */
  function Enabled(content: seq<CourseItem>, s: Session, e: Event): (b: bool)
    requires IndexInRange(content, s.app)
    // the sidebar exists everywhere but in the exam simulator
    ensures (e.LearningHub? || e.KahootArena? || e.ExamSimulator? || e.Analytics? || e.DarkModeToggle?) ==>
      (b <==> s.app.mode != Ielts)
    // inside the exam only its own controls and pending callbacks act
    ensures b && ShownPage(s.app) == ExamPage ==>
      e.ExamTick? || e.ExamProceed? || e.ExamChoose? || e.ExamJump? || e.CallbackDue?
    ensures b && (e.LearnNext? || e.LearnPrev? || e.LearnJump? || e.LearnChoose?) ==> ShownPage(s.app) == LearnPage
    ensures b && (e.ArenaContinue? || e.ArenaChoose? || e.ArenaTick?) ==> ShownPage(s.app) == ArenaPage
    // "Next Step" waits for a quiz to be answered; options lock once answered
    ensures e.LearnNext? ==>
      (b <==> (ShownPage(s.app) == LearnPage && s.app.currentCourseIndex < |content| - 1
               && (CurrentItem(content, s).Lesson? || s.learn.showFeedback)))
    ensures b && e.LearnChoose? ==> !s.learn.showFeedback && CurrentItem(content, s).Quiz?
    ensures b && e.ExamChoose? ==> s.exam.selected.None? && CurrentItem(content, s).Quiz?
    ensures e.CallbackDue? ==> (b <==> e.slot < |s.pending|)
  {
    var page := ShownPage(s.app);
    var item := CurrentItem(content, s);
    var index := s.app.currentCourseIndex;
    match e
    case LearningHub => SidebarShown(s.app)
    case KahootArena => SidebarShown(s.app)
    case ExamSimulator => SidebarShown(s.app)
    case Analytics => SidebarShown(s.app)
    case DarkModeToggle => SidebarShown(s.app)
    case LearnNext => page == LearnPage && Learn.NextEnabled(index < |content| - 1, item, s.learn.showFeedback)
    case LearnPrev => page == LearnPage && Learn.PrevEnabled(index > 0)
    case LearnJump(row) => page == LearnPage && row < |content|
    case LearnChoose(k) => page == LearnPage && item.Quiz? && k < |item.options| && !s.learn.showFeedback
    case ArenaContinue => page == ArenaPage && item.Lesson?
    case ArenaChoose(k) => page == ArenaPage && item.Quiz? && k < |item.options|
    case ArenaTick => page == ArenaPage && Arena.TimerRunning(item, s.arena)
    case ExamTick => page == ExamPage
    case ExamProceed => page == ExamPage && item.Lesson?
    case ExamChoose(k) => page == ExamPage && item.Quiz? && k < |item.options| && s.exam.selected.None?
    case ExamJump(b) => page == ExamPage && b < |content|
    case CallbackDue(k) => k < |s.pending|
  }

  // ---------------------------------------------------------------- the delayed advance

  /** The delayed "next" as the code runs it: `handleNext` tests the index of the render that
      scheduled the callback, then increments the index current when the callback runs. */
  function FireAsWritten(content: seq<CourseItem>, s: Session, k: nat): (r: Session)
    requires k < |s.pending|
    ensures r.pending == RemoveAt(s.pending, k)
    ensures var p := s.pending[k];
      r.app.currentCourseIndex == if p.guardIndex < |content| - 1 then s.app.currentCourseIndex + 1 else s.app.currentCourseIndex
  {
    var p := s.pending[k];
    var app := if p.guardIndex < |content| - 1 then s.app.(currentCourseIndex := s.app.currentCourseIndex + 1) else s.app;
    var arena := if IsArenaFor(p, s.arenaMount) then Arena.AfterAdvance(s.arena) else s.arena;
    s.(app := app, arena := arena, pending := RemoveAt(s.pending, k))
  }

  /** The delayed "next" with the smallest correction: the stale guard still decides whether
      the callback does anything, but the increment is bounded by the index current when it
      runs, so it stops on the last item instead of running past it. */
  function Fire(content: seq<CourseItem>, s: Session, k: nat): (r: Session)
    requires k < |s.pending|
    ensures r.pending == RemoveAt(s.pending, k)
    ensures s.pending[k].guardIndex < |content| - 1 ==> r.app == Next(content, s.app)
    ensures s.pending[k].guardIndex >= |content| - 1 ==> r.app == s.app
    ensures IsArenaFor(s.pending[k], s.arenaMount) ==> r.arena.selected.None?
    ensures r.arenaMount == s.arenaMount
    ensures Valid(content, s) ==> Progress.Valid(content, r.app) && MountsSeen(r.pending, r.arenaMount)
    ensures Valid(content, s) ==> ArenaPendings(r.pending, r.arenaMount) == (if r.arena.selected.Some? then 1 else 0)
    ensures Valid(content, s) ==> Valid(content, r)
  {
    var p := s.pending[k];
    var arena := if IsArenaFor(p, s.arenaMount) then Arena.AfterAdvance(s.arena) else s.arena;
    ArenaPendingsRemove(s.pending, k, s.arenaMount);
    var app := if p.guardIndex < |content| - 1 then Next(content, s.app) else s.app;
    s.(app := app, arena := arena, pending := RemoveAt(s.pending, k))
  }

  // ---------------------------------------------------------------- one step

  /** The direct effect of an enabled event, before the views react to the new props. */
  function Apply(content: seq<CourseItem>, s: Session, e: Event): (r: Session)
    requires Valid(content, s) && Enabled(content, s, e)
    ensures r.arenaMount == s.arenaMount
    ensures Valid(content, r)
  {
    var item := CurrentItem(content, s);
    var index := s.app.currentCourseIndex;
    match e
    case LearningHub => s.(app := ChooseLearningHub(s.app))
    case KahootArena => s.(app := ChooseKahootArena(s.app))
    case ExamSimulator => s.(app := ChooseExamSimulator(s.app))
    case Analytics => s.(app := ChooseAnalytics(s.app))
    case DarkModeToggle => s.(app := ToggleDarkMode(s.app))
    case LearnNext => s.(app := Next(content, s.app))
    case LearnPrev => s.(app := Prev(s.app))
    case LearnJump(row) => s.(app := JumpTo(content, s.app, row))
    case LearnChoose(k) =>
      var c := Learn.ClickOption(s.learn, item.options[k]);
      s.(app := Answer(content, s.app, c.answer == Some(true)), learn := c.local)
    case ArenaContinue => s.(app := Next(content, s.app))
    case ArenaChoose(k) =>
      ArenaSelect(content, s, Arena.Select(item, s.arena, Some(item.options[k].id)))
    case ArenaTick =>
      ArenaSelect(content, s, Arena.Tick(item, s.arena))
    case ExamTick => s.(exam := s.exam.(timeLeft := Exam.Tick(s.exam.timeLeft)))
    case ExamProceed => s.(app := Next(content, s.app))
    case ExamChoose(k) =>
      var sub := Exam.Submit(s.exam, item.options[k]);
      ArenaPendingsAppend(s.pending, ExamAdvance(index), s.arenaMount);
      s.(app := Answer(content, s.app, sub.answer == Some(true)), exam := sub.local,
         pending := s.pending + [ExamAdvance(index)])
    case ExamJump(b) => s.(app := JumpTo(content, s.app, b))
    case CallbackDue(k) => Fire(content, s, k)
  }

  /** Applies an arena reaction: the answer goes to the shell, a scheduled advance is queued. */
  function ArenaSelect(content: seq<CourseItem>, s: Session, r: Arena.Reaction): (t: Session)
    requires Valid(content, s)
    requires Arena.TimerInRange(r.local)
    requires r.scheduled <==> s.arena.selected.None? && r.local.selected.Some?
    requires !r.scheduled ==> r.local.selected == s.arena.selected
    requires r.answer.Some? ==> r.scheduled
    ensures t.arenaMount == s.arenaMount
    ensures t.arena == r.local
    ensures t.app == Answer(content, s.app, r.answer == Some(true))
    ensures t.pending == if r.scheduled then s.pending + [ArenaAdvance(s.app.currentCourseIndex, s.arenaMount)] else s.pending
    ensures Valid(content, t)
  {
    var index := s.app.currentCourseIndex;
    var queued := if r.scheduled then s.pending + [ArenaAdvance(index, s.arenaMount)] else s.pending;
    ArenaPendingsAppend(s.pending, ArenaAdvance(index, s.arenaMount), s.arenaMount);
    s.(app := Answer(content, s.app, r.answer == Some(true)), arena := r.local, pending := queued)
  }

  /** The views' reaction to the new props: a view that appears starts fresh (a new arena
      instance, a full exam clock); the lesson view resets when the item id changes; the
      exam clears its selection when the index changes; the arena restarts its countdown
      when a question is shown with nothing selected. */
  function Settle(content: seq<CourseItem>, before: Session, after: Session): (r: Session)
    requires Valid(content, before) && Valid(content, after)
    requires after.arenaMount == before.arenaMount
    ensures r.app == after.app && r.pending == after.pending
    ensures Valid(content, r)
    // lesson view: fresh when it appears or the item id changes, kept otherwise
    ensures ShownPage(after.app) == LearnPage ==>
      var reset := ShownPage(before.app) != LearnPage || CurrentItem(content, before).id != CurrentItem(content, after).id;
      r.learn == if reset then Learn.Mounted else after.learn
    // exam: a full clock when it appears; the selection cleared when the index changes
    ensures ShownPage(after.app) == ExamPage && ShownPage(before.app) != ExamPage ==> r.exam == Exam.Mounted
    ensures ShownPage(after.app) == ExamPage && ShownPage(before.app) == ExamPage ==>
      r.exam.timeLeft == after.exam.timeLeft
      && (r.exam.selected.None? <==> after.exam.selected.None? || before.app.currentCourseIndex != after.app.currentCourseIndex)
    // arena: a new instance when it appears; the countdown restarts on a new unanswered question
    ensures ShownPage(after.app) == ArenaPage && ShownPage(before.app) != ArenaPage ==>
      r.arenaMount == after.arenaMount + 1 && r.arena.selected.None?
      && (CurrentItem(content, after).Quiz? ==> r.arena.timeLeft == Arena.QuestionSeconds)
    ensures ShownPage(after.app) == ArenaPage && ShownPage(before.app) == ArenaPage ==>
      var item := CurrentItem(content, after);
      var changed := CurrentItem(content, before).id != item.id || CurrentItem(content, before).Quiz? != item.Quiz?
                     || before.arena.selected != after.arena.selected;
      r.arena == if changed && Arena.TimerRunning(item, after.arena) then after.arena.(timeLeft := Arena.QuestionSeconds) else after.arena
    // views not on screen are left alone
    ensures ShownPage(after.app) != ArenaPage ==> r.arena == after.arena && r.arenaMount == after.arenaMount
  {
    var page := ShownPage(after.app);
    var was := ShownPage(before.app);
    var item := CurrentItem(content, after);
    var oldItem := CurrentItem(content, before);
    var learn :=
      if page != LearnPage then after.learn
      else if was != LearnPage then Learn.Mounted
      else Learn.OnItemChange(after.learn, oldItem.id, item.id);
    var exam :=
      if page != ExamPage then after.exam
      else if was != ExamPage then Exam.Mounted
      else Exam.OnIndexChange(after.exam, before.app.currentCourseIndex, after.app.currentCourseIndex);
    if page == ArenaPage && was != ArenaPage then
      NoArenaPendingsAbove(after.pending, after.arenaMount + 1);
      after.(learn := learn, exam := exam, arena := Arena.Restart(item, Arena.Mounted), arenaMount := after.arenaMount + 1)
    else
      var changed := oldItem.id != item.id || oldItem.Quiz? != item.Quiz? || before.arena.selected != after.arena.selected;
      var arena := if page == ArenaPage && changed then Arena.Restart(item, after.arena) else after.arena;
      after.(learn := learn, exam := exam, arena := arena)
  }

  /** One event: disabled controls do nothing; otherwise apply the event and let the views react. */
  function Step(content: seq<CourseItem>, s: Session, e: Event): (r: Session)
    requires Valid(content, s)
    ensures Valid(content, r)
    ensures !Enabled(content, s, e) ==> r == s
  {
    if Enabled(content, s, e) then Settle(content, s, Apply(content, s, e)) else s
  }

  function Run(content: seq<CourseItem>, s: Session, events: seq<Event>): (r: Session)
    requires Valid(content, s)
    ensures Valid(content, r)
    decreases |events|
  {
    if |events| == 0 then s else Run(content, Step(content, s, events[0]), events[1..])
  }

  // ---------------------------------------------------------------- properties

  /** The exam simulator has no sidebar and no exit: once entered, no event leaves it. */
  lemma ExamIsAbsorbing(content: seq<CourseItem>, s: Session, e: Event)
    requires Valid(content, s) && s.app.mode == Ielts
    ensures Step(content, s, e).app.mode == Ielts
  {
  }

  lemma {:induction false} ExamIsAbsorbingForRuns(content: seq<CourseItem>, s: Session, events: seq<Event>)
    requires Valid(content, s) && s.app.mode == Ielts
    ensures Run(content, s, events).app.mode == Ielts
    decreases |events|
  {
    if |events| > 0 {
      ExamIsAbsorbing(content, s, events[0]);
      ExamIsAbsorbingForRuns(content, Step(content, s, events[0]), events[1..]);
    }
  }

  /** Only an answer changes the score, and only upwards by ten. */
  lemma ScoreOnlyGrowsByTen(content: seq<CourseItem>, s: Session, e: Event)
    requires Valid(content, s)
    ensures var t := Step(content, s, e);
      t.app.score == s.app.score || t.app.score == s.app.score + PointsPerCorrect
    ensures var t := Step(content, s, e);
      t.app.completedIds == s.app.completedIds || t.app.completedIds == s.app.completedIds + [CurrentItem(content, s).id]
  {
  }

  /** One answer per lesson-view visit: once feedback shows, clicking options does nothing. */
  lemma LearnAnswersOncePerVisit(content: seq<CourseItem>, s: Session, k: nat)
    requires Valid(content, s) && s.learn.showFeedback
    ensures Step(content, s, LearnChoose(k)) == s
  {
  }

  /** One answer per exam visit: with a selection recorded the inputs are disabled. */
  lemma ExamAnswersOncePerVisit(content: seq<CourseItem>, s: Session, k: nat)
    requires Valid(content, s) && s.exam.selected.Some?
    ensures Step(content, s, ExamChoose(k)) == s
  {
  }

  /** One answer per arena question: a tile pressed after the selection changes neither the
      score nor the queue of callbacks. */
  lemma ArenaAnswersOncePerQuestion(content: seq<CourseItem>, s: Session, k: nat)
    requires Valid(content, s) && s.arena.selected.Some?
    ensures var t := Step(content, s, ArenaChoose(k));
      t.app == s.app && t.pending == s.pending && t.arena.selected == s.arena.selected
  {
  }

  /** The arena clock runs only on a quiz with nothing selected; otherwise a tick does nothing. */
  lemma ArenaClockRunsOnlyWhileUnanswered(content: seq<CourseItem>, s: Session)
    requires Valid(content, s)
    requires !(ShownPage(s.app) == ArenaPage && Arena.TimerRunning(CurrentItem(content, s), s.arena))
    ensures Step(content, s, ArenaTick) == s
  {
  }

  /** The arena countdown running out: a wrong answer (the shell is unchanged), the timeout
      marker as selection, and exactly one advance queued. */
  lemma ArenaTimeoutQueuesOneAdvance(content: seq<CourseItem>, s: Session)
    requires Valid(content, s) && ShownPage(s.app) == ArenaPage
    requires CurrentItem(content, s).Quiz? && s.arena.selected.None? && s.arena.timeLeft <= 1
    ensures var t := Step(content, s, ArenaTick);
      && t.app == s.app
      && t.arena.selected == Some(Arena.TimeoutMarker)
      && t.pending == s.pending + [ArenaAdvance(s.app.currentCourseIndex, s.arenaMount)]
      && ArenaPendings(t.pending, t.arenaMount) == 1
  {
    var t := Step(content, s, ArenaTick);
    assert Valid(content, t);
  }

  /** The queued arena advance moves the shell on once and clears the selection, after which
      nothing of that question is left in the queue. */
  lemma ArenaAdvanceRunsOnce(content: seq<CourseItem>, s: Session, k: nat)
    requires Valid(content, s) && k < |s.pending| && IsArenaFor(s.pending[k], s.arenaMount)
    ensures var t := Step(content, s, CallbackDue(k));
      && t.app == (if s.pending[k].guardIndex < |content| - 1 then Next(content, s.app) else s.app)
      && t.arena.selected.None?
      && ArenaPendings(t.pending, t.arenaMount) == 0
      && |t.pending| == |s.pending| - 1
  {
    var t := Step(content, s, CallbackDue(k));
    assert Valid(content, t);
  }

  /** Moving the lesson view to an item with another id opens it unanswered: no option
      selected, no feedback, so a quiz holds Next back again. */
  lemma LearnJumpOpensItemUnanswered(content: seq<CourseItem>, s: Session, row: nat)
    requires Valid(content, s) && ShownPage(s.app) == LearnPage
    requires row < |content| && content[row].id != CurrentItem(content, s).id
    ensures var t := Step(content, s, LearnJump(row));
      t.learn == Learn.Mounted && t.app.currentCourseIndex == row
  {
  }

  /** Jumping to another exam item clears the recorded choice and keeps the exam clock. */
  lemma ExamJumpClearsChoice(content: seq<CourseItem>, s: Session, b: nat)
    requires Valid(content, s) && ShownPage(s.app) == ExamPage
    requires b < |content| && b != s.app.currentCourseIndex
    ensures var t := Step(content, s, ExamJump(b));
      t.exam.selected.None? && t.exam.timeLeft == s.exam.timeLeft && t.app.currentCourseIndex == b
  {
  }

  /** When the arena's own advance runs and a question is showing, that question starts
      unanswered with the full twenty seconds. */
  lemma ArenaAdvanceRestartsClock(content: seq<CourseItem>, s: Session, k: nat)
    requires Valid(content, s) && ShownPage(s.app) == ArenaPage
    requires k < |s.pending| && IsArenaFor(s.pending[k], s.arenaMount)
    requires CurrentItem(content, Step(content, s, CallbackDue(k))).Quiz?
    ensures Step(content, s, CallbackDue(k)).arena == Arena.Mounted
  {
    ArenaPendingsRemove(s.pending, k, s.arenaMount);
    assert s.arena.selected.Some?;
    var after := Apply(content, s, CallbackDue(k));
    assert after.arena.selected.None? && ShownPage(after.app) == ArenaPage;
  }

  // ---------------------------------------------------------------- which handler each control reaches

  /** The sidebar buttons reach their handlers in `App.tsx`. */
  lemma SidebarWiring(content: seq<CourseItem>, s: Session)
    requires Valid(content, s) && SidebarShown(s.app)
    ensures Step(content, s, LearningHub).app == ChooseLearningHub(s.app)
    ensures Step(content, s, KahootArena).app == ChooseKahootArena(s.app)
    ensures Step(content, s, ExamSimulator).app == ChooseExamSimulator(s.app)
    ensures Step(content, s, Analytics).app == ChooseAnalytics(s.app)
    ensures Step(content, s, DarkModeToggle).app == ToggleDarkMode(s.app)
  {
  }

  /** Every enabled navigation control reaches the shell's navigation handler, and the exam's
      one-second tick counts its clock down. */
  lemma NavigationWiring(content: seq<CourseItem>, s: Session, e: Event)
    requires Valid(content, s) && Enabled(content, s, e)
    ensures e.LearnNext? || e.ArenaContinue? || e.ExamProceed? ==> Step(content, s, e).app == Next(content, s.app)
    ensures e.LearnPrev? ==> Step(content, s, e).app == Prev(s.app)
    ensures e.LearnJump? ==> Step(content, s, e).app == JumpTo(content, s.app, e.row)
    ensures e.ExamJump? ==> Step(content, s, e).app == JumpTo(content, s.app, e.button)
    ensures e.ExamTick? ==> Step(content, s, e).app == s.app && Step(content, s, e).exam.timeLeft == Exam.Tick(s.exam.timeLeft)
  {
  }

  /** A click on option k in the lesson view records option k, shows its feedback and reports
      its correctness to the shell. */
  lemma LearnChooseWiring(content: seq<CourseItem>, s: Session, k: nat)
    requires Valid(content, s) && Enabled(content, s, LearnChoose(k))
    ensures var opt := CurrentItem(content, s).options[k];
      var t := Step(content, s, LearnChoose(k));
      t.app == Answer(content, s.app, opt.correct) && t.learn == Learn.LearnLocal(Some(opt.id), true)
  {
  }

  /** Choosing option k in the exam records it, reports its correctness and queues one advance. */
  lemma ExamChooseWiring(content: seq<CourseItem>, s: Session, k: nat)
    requires Valid(content, s) && Enabled(content, s, ExamChoose(k))
    ensures var opt := CurrentItem(content, s).options[k];
      var t := Step(content, s, ExamChoose(k));
      && t.app == Answer(content, s.app, opt.correct) && t.exam.selected == Some(opt.id)
      && t.pending == s.pending + [ExamAdvance(s.app.currentCourseIndex)]
  {
  }

  /** With unique option ids, pressing tile k in the arena scores exactly when option k is
      correct, and records option k. */
  lemma ArenaChooseScoresPressedTile(content: seq<CourseItem>, s: Session, k: nat)
    requires Valid(content, s) && ShownPage(s.app) == ArenaPage && s.arena.selected.None?
    requires CurrentItem(content, s).Quiz? && k < |CurrentItem(content, s).options|
    requires UniqueOptionIds(CurrentItem(content, s).options)
    ensures var t := Step(content, s, ArenaChoose(k));
      var opt := CurrentItem(content, s).options[k];
      && t.app == Answer(content, s.app, opt.correct)
      && t.arena.selected == Some(Arena.StoredSelection(Some(opt.id)))
      && t.pending == s.pending + [ArenaAdvance(s.app.currentCourseIndex, s.arenaMount)]
  {
    var options := CurrentItem(content, s).options;
    var f := FindById(options, options[k].id);
    assert f.Some? && f.value == k;
  }

  // ---------------------------------------------------------------- the stale bound

  /** As written and corrected agree whenever the index has not moved since the callback was
      scheduled. */
  lemma FireAgreesWithoutInterleaving(content: seq<CourseItem>, s: Session, k: nat)
    requires k < |s.pending| && s.pending[k].guardIndex == s.app.currentCourseIndex
    ensures FireAsWritten(content, s, k) == Fire(content, s, k)
  {
  }

  /** The correction changes nothing the code gets right: whenever the callback as written
      leaves the index on an item, the corrected callback gives the same session. */
  lemma FireMatchesCodeWhileInRange(content: seq<CourseItem>, s: Session, k: nat)
    requires k < |s.pending| && 0 <= s.app.currentCourseIndex
    requires IndexInRange(content, FireAsWritten(content, s, k).app)
    ensures Fire(content, s, k) == FireAsWritten(content, s, k)
  {
  }

  /** The two differ only where the code runs past the last item, and there the corrected
      callback stops on the last item. */
  lemma FireDiffersOnlyPastTheEnd(content: seq<CourseItem>, s: Session, k: nat)
    requires k < |s.pending| && IndexInRange(content, s.app)
    requires Fire(content, s, k) != FireAsWritten(content, s, k)
    ensures FireAsWritten(content, s, k).app.currentCourseIndex == |content|
    ensures Fire(content, s, k).app == s.app && s.app.currentCourseIndex == |content| - 1
  {
  }

  /** A callback whose render already saw the last item does nothing to the shell, even if the
      learner has since moved back. */
  lemma StaleAdvanceFromLastItemIsIgnored(content: seq<CourseItem>, s: Session, k: nat)
    requires Valid(content, s) && k < |s.pending| && s.pending[k].guardIndex == |content| - 1
    ensures Step(content, s, CallbackDue(k)).app == s.app
    ensures Step(content, s, CallbackDue(k)).app == FireAsWritten(content, s, k).app
  {
  }

  /** Course content of three items: a one-option quiz and two lessons. */
  function ThreeItems(): (c: seq<CourseItem>)
    ensures |c| == 3 && c[0].Quiz? && |c[0].options| == 1
  {
    [ Quiz("q0", "Which claim is valid?", [AnswerOption("a", "This one", true, "Yes.")]),
      Lesson("l1", "Planning", "", ""),
      Lesson("l2", "Review", "", "") ]
  }

  /** The exam on the first item, nothing answered yet. */
  const ExamOpened: Session := Session(Initial.(mode := Ielts), Exam.Mounted, Arena.Mounted, 0, Learn.Mounted, [])

  /** The first question answered correctly; one "next" is queued. */
  const ExamAnswered: Session :=
    ExamOpened.(app := ExamOpened.app.(score := 10, completedIds := ["q0"]),
                exam := Exam.Mounted.(selected := Some("a")),
                pending := [ExamAdvance(0)])

  /** Then the last navigation button pressed before the queued "next" runs. */
  const ExamJumped: Session :=
    ExamAnswered.(app := ExamAnswered.app.(currentCourseIndex := 2), exam := Exam.Mounted)

  lemma OpenExam()
    ensures Valid(ThreeItems(), Start) && Step(ThreeItems(), Start, ExamSimulator) == ExamOpened
  {
    StartIsValid(ThreeItems());
  }

  lemma AnswerFirstExamQuestion()
    ensures Valid(ThreeItems(), ExamOpened) && Step(ThreeItems(), ExamOpened, ExamChoose(0)) == ExamAnswered
  {
    OpenExam();
    var c := ThreeItems();
    var a := Apply(c, ExamOpened, ExamChoose(0));
    assert a.app == ExamAnswered.app;
  }

  lemma JumpToLastExamItem()
    ensures Valid(ThreeItems(), ExamAnswered) && Step(ThreeItems(), ExamAnswered, ExamJump(2)) == ExamJumped
  {
    AnswerFirstExamQuestion();
    var c := ThreeItems();
    assert Enabled(c, ExamAnswered, ExamJump(2));
    var a := Apply(c, ExamAnswered, ExamJump(2));
    assert a.app == ExamJumped.app;
  }

  /** In the exam: answer the first question, then press the last navigation button within the
      one-second delay. The queued "next" tested the old index, so as written it moves the
      index past the last item; the corrected callback leaves it on the last item. */
  lemma StaleAdvanceLeavesRange()
    ensures Valid(ThreeItems(), ExamJumped)
    ensures ExamJumped.app.currentCourseIndex == 2 && ExamJumped.pending == [ExamAdvance(0)]
    ensures !IndexInRange(ThreeItems(), FireAsWritten(ThreeItems(), ExamJumped, 0).app)
    ensures Step(ThreeItems(), ExamJumped, CallbackDue(0)).app.currentCourseIndex == 2
  {
    JumpToLastExamItem();
  }
}

=== FILE: wrappers.dfy ===
/** Optional values, standing in for the `T | null` and `T | undefined` values of the views. */
module Wrappers {

  datatype Option<T> = None | Some(value: T)
}
